=== FILE: README.md ===
# Account routes of the clinic back end, modelled in Dafny

This project models the decision logic of the Express router in
`Routes/CreateUser.js`:

- the appointment-number generator;
- the field validation of `POST /createuser`, `POST /loginuser` and
  `POST /logindoctor`;
- the three handlers' decision trees (validate, then hash and store or look up
  and compare, then sign a token);
- `POST /patients`, which merges the request body with a fresh appointment
  number.

Each handler is a pure function. Its arguments are the request body, an
`isEmail` predicate (the validator library's email grammar) and a `Services`
record of oracles:
- `bcrypt` hashing and comparison;
- Mongoose `User.create`, `User.findOne` and `Patient.create`;
- `jwt.sign`.

Every oracle returns an `Attempt` that is either `Done(value)` or `Threw(message)`.
This covers every throw from those calls. The one throw it does not cover is in
the doctor-roster search (see "## Left out"). A
handler returns a `Reply`: the response it sends (with its HTTP status given by
`Status`) plus the ordered trace of oracle calls it made. The trace is what lets
the contracts say "nothing was hashed, stored or looked up".

Files:
- `wrappers.dfy` defines `Option` and `Attempt`.
- `digits.dfy` defines the `^\d{n}$` matcher (`DigitRun`) and the decimal
  rendering of a number (`ToDecimal`) together with its inverse (`ParseDecimal`).
- `appointment.dfy` models `generateAppointmentNumber`.
- `validation.dfy` models the express-validator chains. Each chain is a sequence
  of `Rule`s, `Passes` interprets one rule, and `Validate` is
  `validationResult(req)`.
- `handlers.dfy` models the handlers.

Behaviour of the code that the model keeps, although a reader might expect otherwise:
- `/createuser` and `/loginuser` answer a thrown error with `res.json({ success: false })`
  and no status, so the status is 200, not an error status.
- When `/logindoctor` finds no matching entry it answers 400
  `{ errors: "Invalid login credentials" }`, not a `{ success: false, error }` body.
- The doctor roster counts as loaded whenever it is truthy. An empty array is
  therefore loaded, and matching against it gives invalid credentials, not a
  server error.

## Model

| member | source | states |
|---|---|---|
| Appointment.AppointmentValue | Routes/CreateUser.js:12 | for every fraction r in [0,1), `floor(100000 + r*900000)` lies in [100000, 999999], and it is the floor of that real |
| Appointment.EveryValueReachable | Routes/CreateUser.js:12 | every number in [100000, 999999] is produced by some fraction, so the range is exactly the six-digit numbers |
| Appointment.GenerateAppointmentNumber | Routes/CreateUser.js:11-13 | the appointment number matches `^[0-9]{6}$` and reads back as the drawn value |
| Digits.DigitRun | Routes/CreateUser.js:38 | the pattern `^\d{n}$` run as a matcher: one ASCII digit per step, then the end of input |
| Digits.DigitRunIsAllDigits | Routes/CreateUser.js:38 | the matcher for `^\d{n}$` accepts a string exactly when it has n characters, all ASCII digits 0-9 |
| Digits.ToDecimal | Routes/CreateUser.js:12 | `toString()` of a non-negative integer below 10^21 is a non-empty string of digits without a leading zero |
| Digits.DecimalRoundTrip | Routes/CreateUser.js:12 | reading the decimal rendering back gives the number |
| Digits.DecimalLength | Routes/CreateUser.js:12 | a number in [10^k, 10^(k+1)) renders as exactly k+1 digits |
| Validation.Validate | Routes/CreateUser.js:41-44 | `validationResult` reports no more fields than the chain has rules, and is empty exactly when every rule of the chain passes |
| Validation.ValidateReports | Routes/CreateUser.js:41-43 | a field is in the error list exactly when one of its rules fails |
| Validation.ValidateReportsAll | Routes/CreateUser.js:41-43 | the same, for every field at once |
| Validation.CreateUserNameErrors | Routes/CreateUser.js:28-39 | `/createuser` reports parentName or patientName exactly when it is missing or empty, and email exactly when the email predicate rejects it; `name` is never reported |
| Validation.ConfirmPasswordRule | Routes/CreateUser.js:31-37 | password is reported exactly when shorter than 5; confirmPassword is reported exactly when it is truthy and differs from password, so an absent or empty confirmation never fails |
| Validation.MobileRule | Routes/CreateUser.js:38 | mobile is reported exactly when it is not ten ASCII digits |
| Validation.CreateUserAccepts | Routes/CreateUser.js:28-44 | the `/createuser` error list is empty exactly when all six field rules hold |
| Validation.LoginUserErrors | Routes/CreateUser.js:73-82 | `/loginuser` reports exactly the empty names, the rejected email and a password shorter than 5, and nothing else; the list is empty exactly when all four hold |
| Validation.LoginDoctorErrors | Routes/CreateUser.js:112-120 | `/logindoctor` reports exactly an empty name, a rejected email and a password shorter than 5; the list is empty exactly when all three hold |
| Validation.Truthy | Routes/CreateUser.js:37 | a field counts as present for an optional rule that skips falsy values exactly when it is sent and not empty |
| Validation.Passes | Routes/CreateUser.js:29-39 | a missing field reads as ""; a length rule needs at least the minimum number of characters; the mobile rule needs exactly ten digits; the email rule defers to the library predicate; the confirmation passes when it is falsy or strictly equal to the password |
| Validation.CreateUserChain | Routes/CreateUser.js:28-39 | the six `/createuser` rules, one per field |
| Validation.LoginUserChain | Routes/CreateUser.js:73-77 | the four `/loginuser` rules, one per field |
| Validation.LoginDoctorChain | Routes/CreateUser.js:112-115 | the three `/logindoctor` rules, one per field |
| Handlers.Status | Routes/CreateUser.js:43-147 | field errors and invalid credentials are 400, the server error is 500, and replies sent without an explicit status are 200 |
| Handlers.UserDocument | Routes/CreateUser.js:50-56 | the stored user keeps the submitted names, mobile and email, and holds the hash in place of the password |
| Handlers.DoctorMatches | Routes/CreateUser.js:130 | a roster entry matches when its name, email and password are each strictly equal to the submitted field |
| Handlers.CreateUser | Routes/CreateUser.js:27-70 | an invalid body gets 400 with a non-empty error list naming exactly the fields whose rules fail, and no hash or store call; only hash, store and sign calls are made, and a sign call is for the id just stored; a stored document holds the submitted names, mobile and email with the hash of the password; success signs `{user:{id}}` with the id the store returned; the status is never 500 |
| Handlers.FilterOf | Routes/CreateUser.js:84-86 | the lookup filter is the submitted parentName, patientName and email, as sent |
| Handlers.LoginUser | Routes/CreateUser.js:72-109 | an invalid body gets 400, with the list naming exactly the fields whose rules fail, before any lookup; a valid body is first looked up by its filter, only lookup, compare and sign calls are made, and a sign call is for an account whose password matched; invalid credentials exactly when the account is missing or the password does not match; success exactly signs the found account's id; the status is never 500 |
| Handlers.NoAccountEnumeration | Routes/CreateUser.js:86-94 | a missing account and a wrong password produce the identical response |
| Handlers.SignUpThenLogIn | Routes/CreateUser.js:46-103 | after a sign-up stores the hashed document, logging in with the same fields succeeds with a token for the stored id, given that the store returns that document and bcrypt accepts the password against its own hash |
| Handlers.FindDoctorFrom | Routes/CreateUser.js:130 | the roster search from a position returns the first matching entry at or after it, or none when no later entry matches |
| Handlers.FindDoctor | Routes/CreateUser.js:130 | the roster search returns the first entry matching name, email and password exactly, and none exactly when no entry matches |
| Handlers.FirstMatchIsFound | Routes/CreateUser.js:130 | whenever a position is the first matching entry, the search returns that position |
| Handlers.LoginDoctor | Routes/CreateUser.js:111-149 | an invalid body gets 400 with the list naming exactly the fields whose rules fail; the only call ever made is signing the first matching entry's id, and none on invalid credentials or an unloaded roster; an unloaded roster gets 500 and never invalid credentials; invalid credentials exactly when the loaded roster has no match; success signs `{doctor:{id}}` for the first matching entry |
| Handlers.PatientDocument | Routes/CreateUser.js:16-20 | the stored patient keeps every submitted field except `appointmentNumber`, which is replaced by a six-digit decimal string |
| Handlers.CreatePatient | Routes/CreateUser.js:15-25 | exactly one store call with that document; the stored document is answered, or 400 with the store's error message |

## Left out

- Validate: lists the failing fields in chain order, and each handler answers exactly that list. `Validate`'s contract states which fields are listed, not their order. The text of each message is not modelled.
- bcrypt, jsonwebtoken and Mongoose are oracles. The model does not cover salt generation, hash comparison, token format, `JWT_SECRET`, or the stored schema (`models/User` is not part of this model).
- `isEmail` is a parameter, because the library's email grammar is not part of this model.
- `isLength` counts code points here. The library also discounts the variation selectors U+FE0E and U+FE0F, which this model does not do.
- Request-body values are strings or absent. Numbers, booleans, arrays and nested objects are not modelled, and neither is the validator's string conversion of them.
- Patient bodies are maps from field name to string for the same reason.
- `Math.random()` and the floating-point arithmetic of `generateAppointmentNumber` become an exact real in [0, 1). Float rounding is not modelled.
- Express routing, `res.status`/`res.json`, `console.error` logging and async sequencing are I/O and are not modelled. Only the response value and the order of oracle calls are kept.
- `GET /users`, `GET /patients` and `GET /doctors` only pass data through, so they are not modelled.
- The doctor roster is modelled as an array whose entries have string fields. The search at line 130 throws when the roster is truthy but not an array, or when an entry is null, and the handler then answers 500. That case is not modelled.
- `Routes/DisplayData.js` only echoes the roster, so it is not modelled.

=== FILE: appointment.dfy ===
/** `generateAppointmentNumber` (Routes/CreateUser.js): a uniform draw
    `Math.random()` scaled onto the six-digit range and rendered in decimal.
    The draw is a parameter, read as an exact real in [0, 1). */
module Appointment {
  import opened Digits

  const Low: nat := 100000
  const Span: nat := 900000

  /** True of the values `Math.random()` may return. */
  predicate IsFraction(r: real) {
    0.0 <= r < 1.0
  }

  /** The draw scaled onto [100000, 1000000) and rounded down: every fraction
      lands on a six-digit number. */
  function AppointmentValue(r: real): (n: int)
    requires IsFraction(r)
    ensures Pow10(5) <= n < Pow10(6)
    ensures n as real <= Low as real + r * Span as real < n as real + 1.0
  {
    (Low as real + r * Span as real).Floor
  }

  /** Every six-digit number is drawn by some fraction, so the range is exactly
      [100000, 999999]. */
  lemma EveryValueReachable(n: int)
    requires Pow10(5) <= n < Pow10(6)
    ensures exists r :: IsFraction(r) && AppointmentValue(r) == n
  {
    var r := (n - Low) as real / Span as real;
    assert IsFraction(r);
    assert Low as real + r * Span as real == n as real;
    assert AppointmentValue(r) == n;
  }

  /** `generateAppointmentNumber()`: the six-digit value as a decimal string;
      it matches `^[0-9]{6}$` and reads back as the drawn value. */
  function GenerateAppointmentNumber(r: real): (s: string)
    requires IsFraction(r)
    ensures DigitRun(s, 6)
    ensures forall i :: 0 <= i < |s| ==> IsDigit(s[i])
    ensures ParseDecimal(s) == AppointmentValue(r)
  {
    var n := AppointmentValue(r);
    DecimalLength(n, 5);
    DigitRunIsAllDigits(ToDecimal(n), 6);
    DecimalRoundTrip(n);
    ToDecimal(n)
  }
}

=== FILE: digits.dfy ===
/** Decimal digits: the `\d{n}` regular-expression shape used by the mobile
    number rule, and the decimal rendering of a non-negative integer used by
    the appointment number (`Number.prototype.toString`). */
module Digits {

  /** JavaScript's `\d`: the ASCII digits 0-9 only. */
  predicate IsDigit(c: char) {
    '0' <= c <= '9'
  }

  /** The declarative reading of `^\d{n}$`: exactly `n` characters, all digits. */
  ghost predicate AllDigits(s: string, n: nat) {
    |s| == n && forall i :: 0 <= i < |s| ==> IsDigit(s[i])
  }

  /** The pattern `^\d{n}$` run as a matcher: consume one digit per step and,
      after `n` of them, demand the end of input (`$` without the `m` flag
      matches only at the very end). */
  predicate DigitRun(s: string, n: nat)
    decreases |s|
  {
    if s == [] then n == 0
    else n > 0 && IsDigit(s[0]) && DigitRun(s[1..], n - 1)
  }

  /** The matcher accepts exactly the strings of `n` digits. */
  lemma {:induction false} DigitRunIsAllDigits(s: string, n: nat)
    ensures DigitRun(s, n) <==> AllDigits(s, n)
    decreases |s|
  {
    if n > 0 && |s| > 0 {
      DigitRunIsAllDigits(s[1..], n - 1);
      if AllDigits(s, n) {
        assert forall i :: 0 <= i < |s[1..]| ==> s[1..][i] == s[i + 1];
      }
      if DigitRun(s, n) {
        forall i | 0 <= i < |s|
          ensures IsDigit(s[i])
        {
          if i > 0 { assert s[i] == s[1..][i - 1]; }
        }
      }
    }
  }

  function DigitChar(d: nat): (c: char)
    requires d < 10
    ensures IsDigit(c)
  {
    ['0', '1', '2', '3', '4', '5', '6', '7', '8', '9'][d]
  }

  function DigitValue(c: char): (d: nat)
    requires IsDigit(c)
    ensures d < 10
  {
    (c as int - '0' as int) as nat
  }

  /** `DigitValue` undoes `DigitChar`. */
  lemma DigitRoundTrip(d: nat)
    requires d < 10
    ensures DigitValue(DigitChar(d)) == d
  {
  }

  /** The decimal rendering of `n` without sign or leading zeros, which is what
      `toString()` produces for an integral Number below 10^21. */
  function ToDecimal(n: nat): (s: string)
    ensures |s| > 0
    ensures forall i :: 0 <= i < |s| ==> IsDigit(s[i])
    ensures n > 0 ==> s[0] != '0'
    decreases n
  {
    if n < 10 then [DigitChar(n)]
    else ToDecimal(n / 10) + [DigitChar(n % 10)]
  }

  /** Reads a string of digits back as a number, most significant digit first. */
  function ParseDecimal(s: string): nat
    requires forall i :: 0 <= i < |s| ==> IsDigit(s[i])
  {
    if s == [] then 0
    else 10 * ParseDecimal(s[..|s| - 1]) + DigitValue(s[|s| - 1])
  }

  /** Rendering then reading gives the number back. */
  lemma {:induction false} DecimalRoundTrip(n: nat)
    ensures ParseDecimal(ToDecimal(n)) == n
    decreases n
  {
    var s := ToDecimal(n);
    if n < 10 {
      DigitRoundTrip(n);
    } else {
      DecimalRoundTrip(n / 10);
      assert s[..|s| - 1] == ToDecimal(n / 10);
      DigitRoundTrip(n % 10);
    }
  }

  function Pow10(k: nat): nat
  {
    if k == 0 then 1 else 10 * Pow10(k - 1)
  }

  /** A number with `k + 1` digits renders as exactly `k + 1` characters. */
  lemma {:induction false} DecimalLength(n: nat, k: nat)
    requires Pow10(k) <= n < Pow10(k + 1)
    ensures |ToDecimal(n)| == k + 1
    decreases k
  {
    if k > 0 {
      DecimalLength(n / 10, k - 1);
    }
  }
}

=== FILE: handlers.dfy ===
/** The request handlers of Routes/CreateUser.js as pure functions. Every
    effect the source awaits inside its `try` block (bcrypt, Mongoose, jwt) is
    an oracle in `Services`; a handler returns the response it sends together
    with the trace of oracle calls it made, in order. */
module Handlers {
  import opened Wrappers
  import opened Digits
  import opened Validation
  import opened Appointment

  /** The payload given to `jwt.sign`: `{ user: { id } }` or `{ doctor: { id } }`. */
  datatype Claim = UserClaim(id: string) | DoctorClaim(id: string)

  /** The document `User.create` is asked to store. */
  datatype NewUser = NewUser(
    parentName: Option<string>,
    patientName: Option<string>,
    mobile: Option<string>,
    email: Option<string>,
    password: string)

  /** The filter `{ parentName, patientName, email }` given to `User.findOne`. */
  datatype UserFilter = UserFilter(parentName: Option<string>, patientName: Option<string>, email: Option<string>)

  /** A stored user as the login handler reads it: its id and its password hash. */
  datatype StoredUser = StoredUser(id: string, passwordHash: string)

  /** An entry of the doctor roster `global.doctordata`. */
  datatype Doctor = Doctor(id: string, name: string, email: string, password: string)

  /** A patient document: the submitted body's fields by name. */
  type Record = map<string, string>

  /** One call a handler makes to a library or the database. */
  datatype Call =
    | HashPassword(plain: string)                 // bcrypt.genSalt(10) then bcrypt.hash
    | InsertUser(user: NewUser)                   // User.create
    | FindUser(filter: UserFilter)                // User.findOne
    | ComparePassword(plain: string, hash: string) // bcrypt.compare
    | Sign(claim: Claim)                          // jwt.sign with the configured secret
    | InsertPatient(patient: Record)              // Patient.create

  /** The oracles, each of which may throw. */
  datatype Services = Services(
    hash: string -> Attempt<string>,
    compare: (string, string) -> Attempt<bool>,
    insertUser: NewUser -> Attempt<string>,
    findUser: UserFilter -> Attempt<Option<StoredUser>>,
    insertPatient: Record -> Attempt<Record>,
    sign: Claim -> Attempt<string>)

  /** The responses the handlers send. */
  datatype Response =
    | FieldErrors(fields: seq<Field>)  // 400 { errors: errors.array() }
    | InvalidCredentials               // 400 { errors: "Invalid login credentials" }
    | Authenticated(authToken: string) // 200 { success: true, authToken }
    | Unsuccessful                     // 200 { success: false }
    | ServerError                      // 500 { success: false, error: "Server error" }
    | PatientSaved(patient: Record)    // 200, the stored patient
    | PatientRejected(error: string)   // 400 { error: err.message }

  /** The HTTP status of a response; `res.json` without `res.status` sends 200. */
  function Status(r: Response): int {
    match r
    case FieldErrors(_) => 400
    case InvalidCredentials => 400
    case Authenticated(_) => 200
    case Unsuccessful => 200
    case ServerError => 500
    case PatientSaved(_) => 200
    case PatientRejected(_) => 400
  }

  datatype Reply = Reply(response: Response, calls: seq<Call>)

  // ---------------------------------------------------------------------------
  // POST /createuser

  /** The document `/createuser` stores: the submitted names, mobile and email
      with the password replaced by its hash. */
  function UserDocument(b: Body, hashed: string): NewUser {
    NewUser(b.parentName, b.patientName, b.mobile, b.email, hashed)
  }

  /** `POST /createuser`. An invalid body is answered 400 with the failing
      fields before anything is hashed or stored. Otherwise the password is
      hashed, the document stored and a token signed for the new id; a throw
      from any of the three is answered 200 `{ success: false }`. */
  function CreateUser(b: Body, isEmail: string -> bool, svc: Services): (r: Reply)
    ensures r.response.FieldErrors? || r.response.Authenticated? || r.response == Unsuccessful
    ensures r.response.FieldErrors? <==> !CreateUserFieldsOk(b, isEmail)
    ensures r.response.FieldErrors? ==> Status(r.response) == 400 && r.response.fields != [] && r.calls == []
    ensures r.response.FieldErrors? ==> r.response.fields == Validate(CreateUserChain, b, isEmail)
    ensures r.response.FieldErrors? ==>
      forall f :: f in r.response.fields <==> FailsOn(CreateUserChain, b, isEmail, f)
    ensures Status(r.response) != 500
    ensures r.response == Unsuccessful ==> CreateUserFieldsOk(b, isEmail) && Status(r.response) == 200
    ensures forall c :: c in r.calls ==> c.HashPassword? || c.InsertUser? || c.Sign?
    ensures forall c :: c in r.calls && c.Sign? ==>
      && CreateUserFieldsOk(b, isEmail)
      && svc.hash(Text(b.password)).Done?
      && svc.insertUser(UserDocument(b, svc.hash(Text(b.password)).value)).Done?
      && c.claim == UserClaim(svc.insertUser(UserDocument(b, svc.hash(Text(b.password)).value)).value)
    ensures CreateUserFieldsOk(b, isEmail) && svc.hash(Text(b.password)).Done? ==>
      var user := UserDocument(b, svc.hash(Text(b.password)).value);
      svc.insertUser(user).Done? && svc.sign(UserClaim(svc.insertUser(user).value)).Done? ==>
        r.response == Authenticated(svc.sign(UserClaim(svc.insertUser(user).value)).value)
    ensures forall c :: c in r.calls && c.InsertUser? ==>
      && CreateUserFieldsOk(b, isEmail)
      && svc.hash(Text(b.password)) == Done(c.user.password)
      && c.user == UserDocument(b, c.user.password)
    ensures r.response.Authenticated? ==>
      && CreateUserFieldsOk(b, isEmail)
      && |r.calls| == 3 && r.calls[1].InsertUser? && r.calls[2].Sign?
      && svc.insertUser(r.calls[1].user) == Done(r.calls[2].claim.id)
      && r.calls[2].claim.UserClaim?
      && svc.sign(r.calls[2].claim) == Done(r.response.authToken)
  {
    var errors := Validate(CreateUserChain, b, isEmail);
    CreateUserAccepts(b, isEmail);
    ValidateReportsAll(CreateUserChain, b, isEmail);
    if errors != [] then Reply(FieldErrors(errors), [])
    else
      var plain := Text(b.password);
      match svc.hash(plain)
      case Threw(_) => Reply(Unsuccessful, [HashPassword(plain)])
      case Done(hashed) =>
        var user := UserDocument(b, hashed);
        match svc.insertUser(user)
        case Threw(_) => Reply(Unsuccessful, [HashPassword(plain), InsertUser(user)])
        case Done(id) =>
          var claim := UserClaim(id);
          match svc.sign(claim)
          case Threw(_) => Reply(Unsuccessful, [HashPassword(plain), InsertUser(user), Sign(claim)])
          case Done(token) => Reply(Authenticated(token), [HashPassword(plain), InsertUser(user), Sign(claim)])
  }

  // ---------------------------------------------------------------------------
  // POST /loginuser

  function FilterOf(b: Body): UserFilter {
    UserFilter(b.parentName, b.patientName, b.email)
  }

  /** The store holds `u` under the body's names and email, and the submitted
      password matches its hash. */
  ghost predicate ValidLogin(b: Body, svc: Services, u: StoredUser) {
    && svc.findUser(FilterOf(b)) == Done(Some(u))
    && svc.compare(Text(b.password), u.passwordHash) == Done(true)
  }

  /** The store answers that no account has the body's names and email, or has
      one whose hash does not match the submitted password. */
  ghost predicate BadLogin(b: Body, svc: Services) {
    || svc.findUser(FilterOf(b)) == Done(None)
    || exists u: StoredUser :: svc.findUser(FilterOf(b)) == Done(Some(u))
                && svc.compare(Text(b.password), u.passwordHash) == Done(false)
  }

  /** `POST /loginuser`. An invalid body is answered 400 before the store is
      consulted. A missing account and a wrong password get the same 400
      response; a matching password gets a token signed for the account's id;
      a throw is answered 200 `{ success: false }`. */
  function LoginUser(b: Body, isEmail: string -> bool, svc: Services): (r: Reply)
    ensures r.response.FieldErrors? || r.response == InvalidCredentials || r.response.Authenticated?
         || r.response == Unsuccessful
    ensures r.response.FieldErrors? <==> !LoginUserFieldsOk(b, isEmail)
    ensures r.response.FieldErrors? ==> Status(r.response) == 400 && r.response.fields != [] && r.calls == []
    ensures r.response.FieldErrors? ==> r.response.fields == Validate(LoginUserChain, b, isEmail)
    ensures r.response.FieldErrors? ==>
      forall f :: f in r.response.fields <==> FailsOn(LoginUserChain, b, isEmail, f)
    ensures Status(r.response) != 500
    ensures r.response == Unsuccessful ==> LoginUserFieldsOk(b, isEmail) && Status(r.response) == 200
    ensures LoginUserFieldsOk(b, isEmail) ==> |r.calls| >= 1 && r.calls[0] == FindUser(FilterOf(b))
    ensures forall c :: c in r.calls ==> c.FindUser? || c.ComparePassword? || c.Sign?
    ensures forall c :: c in r.calls && c.Sign? ==>
      exists u: StoredUser :: ValidLogin(b, svc, u) && c.claim == UserClaim(u.id)
    ensures r.response == InvalidCredentials <==> LoginUserFieldsOk(b, isEmail) && BadLogin(b, svc)
    ensures r.response.Authenticated? ==>
      exists u :: ValidLogin(b, svc, u) && svc.sign(UserClaim(u.id)) == Done(r.response.authToken)
    ensures forall u :: LoginUserFieldsOk(b, isEmail) && ValidLogin(b, svc, u) && svc.sign(UserClaim(u.id)).Done? ==>
      r.response == Authenticated(svc.sign(UserClaim(u.id)).value)
  {
    var errors := Validate(LoginUserChain, b, isEmail);
    LoginUserErrors(b, isEmail);
    ValidateReportsAll(LoginUserChain, b, isEmail);
    if errors != [] then Reply(FieldErrors(errors), [])
    else
      var filter := FilterOf(b);
      var plain := Text(b.password);
      match svc.findUser(filter)
      case Threw(_) => Reply(Unsuccessful, [FindUser(filter)])
      case Done(None) => Reply(InvalidCredentials, [FindUser(filter)])
      case Done(Some(u)) =>
        match svc.compare(plain, u.passwordHash)
        case Threw(_) => Reply(Unsuccessful, [FindUser(filter), ComparePassword(plain, u.passwordHash)])
        case Done(false) => Reply(InvalidCredentials, [FindUser(filter), ComparePassword(plain, u.passwordHash)])
        case Done(true) =>
          var claim := UserClaim(u.id);
          var calls := [FindUser(filter), ComparePassword(plain, u.passwordHash), Sign(claim)];
          match svc.sign(claim)
          case Threw(_) => Reply(Unsuccessful, calls)
          case Done(token) => Reply(Authenticated(token), calls)
  }

  /** A missing account and a wrong password cannot be told apart: both yield
      the very same response. */
  lemma NoAccountEnumeration(b: Body, isEmail: string -> bool, missing: Services, wrong: Services, u: StoredUser)
    requires missing.findUser(FilterOf(b)) == Done(None)
    requires wrong.findUser(FilterOf(b)) == Done(Some(u))
    requires wrong.compare(Text(b.password), u.passwordHash) == Done(false)
    ensures LoginUser(b, isEmail, missing).response == LoginUser(b, isEmail, wrong).response
    ensures LoginUserFieldsOk(b, isEmail) ==> LoginUser(b, isEmail, missing).response == InvalidCredentials
  {
  }

  /** Signing up and then logging in with the same fields succeeds, and the
      login token is signed for the id the sign-up stored, provided the store
      returns the stored document and bcrypt accepts the password against the
      hash it produced. */
  lemma SignUpThenLogIn(b: Body, isEmail: string -> bool, svc: Services, later: Services,
                        hashed: string, id: string, token: string)
    requires CreateUserFieldsOk(b, isEmail)
    requires svc.hash(Text(b.password)) == Done(hashed)
    requires svc.insertUser(UserDocument(b, hashed)) == Done(id)
    requires later.findUser(FilterOf(b)) == Done(Some(StoredUser(id, hashed)))
    requires later.compare(Text(b.password), hashed) == Done(true)
    requires later.sign(UserClaim(id)) == Done(token)
    ensures InsertUser(UserDocument(b, hashed)) in CreateUser(b, isEmail, svc).calls
    ensures Sign(UserClaim(id)) in CreateUser(b, isEmail, svc).calls
    ensures LoginUser(b, isEmail, later).response == Authenticated(token)
  {
    CreateUserAccepts(b, isEmail);
    LoginUserErrors(b, isEmail);
    assert ValidLogin(b, later, StoredUser(id, hashed));
  }

  // ---------------------------------------------------------------------------
  // POST /logindoctor

  /** An entry matches when its name, email and password are each strictly
      equal to the submitted field, so an absent field never matches. */
  predicate DoctorMatches(d: Doctor, b: Body) {
    b.name == Some(d.name) && b.email == Some(d.email) && b.password == Some(d.password)
  }

  /** `i` is the first roster position whose entry matches the body. */
  ghost predicate FirstMatch(docs: seq<Doctor>, b: Body, i: nat) {
    && i < |docs|
    && DoctorMatches(docs[i], b)
    && forall j :: 0 <= j < i ==> !DoctorMatches(docs[j], b)
  }

  /** `Array.prototype.find` from position `start` on, answering the position. */
  function FindDoctorFrom(docs: seq<Doctor>, b: Body, start: nat): (r: Option<nat>)
    requires start <= |docs|
    ensures r.Some? ==>
      && start <= r.value < |docs|
      && DoctorMatches(docs[r.value], b)
      && forall j :: start <= j < r.value ==> !DoctorMatches(docs[j], b)
    ensures r.None? ==> forall j :: start <= j < |docs| ==> !DoctorMatches(docs[j], b)
    decreases |docs| - start
  {
    if start == |docs| then None
    else if DoctorMatches(docs[start], b) then Some(start)
    else FindDoctorFrom(docs, b, start + 1)
  }

  /** The roster search: the first matching position, or None when no entry
      matches. */
  function FindDoctor(docs: seq<Doctor>, b: Body): (r: Option<nat>)
    ensures r.Some? ==> FirstMatch(docs, b, r.value)
    ensures r.None? <==> forall j :: 0 <= j < |docs| ==> !DoctorMatches(docs[j], b)
  {
    FindDoctorFrom(docs, b, 0)
  }

  /** A position that is the first match is the one the search returns. */
  lemma FirstMatchIsFound(docs: seq<Doctor>, b: Body)
    ensures forall i: nat :: FirstMatch(docs, b, i) ==> FindDoctor(docs, b) == Some(i)
  {
    forall i: nat | FirstMatch(docs, b, i)
      ensures FindDoctor(docs, b) == Some(i)
    {
      assert DoctorMatches(docs[i], b);
    }
  }

  /** `POST /logindoctor`. An invalid body is answered 400; a roster that is not
      loaded, or a throw while signing, 500; no matching entry 400 invalid
      credentials; otherwise a token signed for the first matching entry. */
  function LoginDoctor(b: Body, isEmail: string -> bool, roster: Option<seq<Doctor>>, svc: Services): (r: Reply)
    ensures r.response.FieldErrors? || r.response == InvalidCredentials || r.response.Authenticated?
         || r.response == ServerError
    ensures r.response.FieldErrors? <==> !LoginDoctorFieldsOk(b, isEmail)
    ensures r.response == ServerError ==>
      && LoginDoctorFieldsOk(b, isEmail)
      && Status(r.response) == 500
      && (roster.None? || exists i: nat :: FirstMatch(roster.value, b, i)
                                         && svc.sign(DoctorClaim(roster.value[i].id)).Threw?)
    ensures r.response == InvalidCredentials || roster.None? ==> r.calls == []
    ensures forall c :: c in r.calls ==>
      && c.Sign?
      && roster.Some?
      && exists i: nat :: FirstMatch(roster.value, b, i) && c.claim == DoctorClaim(roster.value[i].id)
    ensures r.response.FieldErrors? ==> Status(r.response) == 400 && r.response.fields != [] && r.calls == []
    ensures r.response.FieldErrors? ==> r.response.fields == Validate(LoginDoctorChain, b, isEmail)
    ensures r.response.FieldErrors? ==>
      forall f :: f in r.response.fields <==> FailsOn(LoginDoctorChain, b, isEmail, f)
    ensures roster.None? && LoginDoctorFieldsOk(b, isEmail) ==> r.response == ServerError && Status(r.response) == 500
    ensures r.response == InvalidCredentials <==>
      && LoginDoctorFieldsOk(b, isEmail)
      && roster.Some?
      && forall j :: 0 <= j < |roster.value| ==> !DoctorMatches(roster.value[j], b)
    ensures r.response.Authenticated? ==>
      && roster.Some?
      && exists i: nat :: FirstMatch(roster.value, b, i)
                  && r.calls == [Sign(DoctorClaim(roster.value[i].id))]
                  && svc.sign(DoctorClaim(roster.value[i].id)) == Done(r.response.authToken)
    ensures forall i: nat ::
      (LoginDoctorFieldsOk(b, isEmail) && roster.Some? && FirstMatch(roster.value, b, i)
        && svc.sign(DoctorClaim(roster.value[i].id)).Done?) ==>
      r.response == Authenticated(svc.sign(DoctorClaim(roster.value[i].id)).value)
  {
    var errors := Validate(LoginDoctorChain, b, isEmail);
    LoginDoctorErrors(b, isEmail);
    ValidateReportsAll(LoginDoctorChain, b, isEmail);
    if errors != [] then Reply(FieldErrors(errors), [])
    else
      match roster
      case None => Reply(ServerError, [])
      case Some(docs) =>
        match FindDoctor(docs, b)
        case None => Reply(InvalidCredentials, [])
        case Some(i) =>
          FirstMatchIsFound(docs, b);
          assert FirstMatch(docs, b, i);
          var claim := DoctorClaim(docs[i].id);
          match svc.sign(claim)
          case Threw(_) => Reply(ServerError, [Sign(claim)])
          case Done(token) => Reply(Authenticated(token), [Sign(claim)])
  }

  // ---------------------------------------------------------------------------
  // POST /patients

  const AppointmentKey: string := "appointmentNumber"

  /** The patient document: every submitted field, with the appointment number
      field set to a freshly generated number (overriding any submitted one). */
  function PatientDocument(body: Record, r: real): (doc: Record)
    requires IsFraction(r)
    ensures doc.Keys == body.Keys + {AppointmentKey}
    ensures AllDigits(doc[AppointmentKey], 6)
    ensures ParseDecimal(doc[AppointmentKey]) == AppointmentValue(r)
    ensures forall k :: k in body && k != AppointmentKey ==> doc[k] == body[k]
  {
    DigitRunIsAllDigits(GenerateAppointmentNumber(r), 6);
    body[AppointmentKey := GenerateAppointmentNumber(r)]
  }

  /** `POST /patients`: stores the body with a fresh appointment number, which
      replaces any the client sent, and answers the stored document, or 400
      with the store's error message. */
  function CreatePatient(body: Record, r: real, svc: Services): (reply: Reply)
    requires IsFraction(r)
    ensures |reply.calls| == 1 && reply.calls[0].InsertPatient?
    ensures reply.calls[0].patient == PatientDocument(body, r)
    ensures reply.response.PatientSaved? || reply.response.PatientRejected?
    ensures reply.response.PatientSaved? <==> svc.insertPatient(reply.calls[0].patient).Done?
    ensures reply.response.PatientSaved? ==>
      svc.insertPatient(reply.calls[0].patient) == Done(reply.response.patient) && Status(reply.response) == 200
    ensures reply.response.PatientRejected? ==>
      svc.insertPatient(reply.calls[0].patient) == Threw(reply.response.error) && Status(reply.response) == 400
  {
    var doc := PatientDocument(body, r);
    match svc.insertPatient(doc)
    case Done(saved) => Reply(PatientSaved(saved), [InsertPatient(doc)])
    case Threw(message) => Reply(PatientRejected(message), [InsertPatient(doc)])
  }
}

=== FILE: validation.dfy ===
/** The express-validator chains that guard `/createuser`, `/loginuser` and
    `/logindoctor` (Routes/CreateUser.js), written as data: each chain is a
    sequence of rules, one per body field, and `validationResult(req)` is the
    list of fields whose rule failed. */
module Validation {
  import opened Wrappers
  import opened Digits

  /** The request-body fields the handlers read. */
  datatype Field = ParentName | PatientName | Name | Password | ConfirmPassword | Mobile | Email

  /** A JSON request body restricted to those fields; a field the client did
      not send is None. */
  datatype Body = Body(
    parentName: Option<string>,
    patientName: Option<string>,
    name: Option<string>,
    password: Option<string>,
    confirmPassword: Option<string>,
    mobile: Option<string>,
    email: Option<string>)

  function Get(b: Body, f: Field): Option<string> {
    match f
    case ParentName => b.parentName
    case PatientName => b.patientName
    case Name => b.name
    case Password => b.password
    case ConfirmPassword => b.confirmPassword
    case Mobile => b.mobile
    case Email => b.email
  }

  /** The string a standard validator inspects: a missing field reads as "". */
  function Text(v: Option<string>): string {
    v.GetOr("")
  }

  /** JavaScript truthiness of a string-or-undefined field: `optional({ checkFalsy: true })`
      skips a field that is undefined or "". */
  predicate Truthy(v: Option<string>) {
    v.Some? && v.value != ""
  }

  /** One link of a validation chain. */
  datatype Rule =
    | MinLength(field: Field, min: nat)     // the field has at least `min` characters
    | DigitsOnly(field: Field, count: nat)  // the field is exactly `count` decimal digits
    | WellFormedEmail(field: Field)         // the library's email check accepts the field
    | ConfirmsPassword(field: Field)        // when truthy, the field equals the submitted password

  /** Whether `b` satisfies `rule`; the email grammar belongs to the validator
      library and is the parameter `isEmail`. */
  predicate Passes(rule: Rule, b: Body, isEmail: string -> bool) {
    var v := Get(b, rule.field);
    match rule
    case MinLength(_, min) => |Text(v)| >= min
    case DigitsOnly(_, count) => DigitRun(Text(v), count)
    case WellFormedEmail(_) => isEmail(Text(v))
    case ConfirmsPassword(_) => !Truthy(v) || v == b.password
  }

  /** Some rule of `chain` about field `f` fails on `b`. */
  ghost predicate FailsOn(chain: seq<Rule>, b: Body, isEmail: string -> bool, f: Field) {
    exists i :: 0 <= i < |chain| && chain[i].field == f && !Passes(chain[i], b, isEmail)
  }

  /** `validationResult(req)`: the fields of the rules that failed, in chain
      order; it is empty exactly when every rule passes. */
  function Validate(chain: seq<Rule>, b: Body, isEmail: string -> bool): (errors: seq<Field>)
    ensures |errors| <= |chain|
    ensures errors == [] <==> forall i :: 0 <= i < |chain| ==> Passes(chain[i], b, isEmail)
    decreases |chain|
  {
    if chain == [] then []
    else
      var rest := Validate(chain[1..], b, isEmail);
      assert forall i :: 1 <= i < |chain| ==> chain[i] == chain[1..][i - 1];
      if Passes(chain[0], b, isEmail) then rest else [chain[0].field] + rest
  }

  /** A field is reported exactly when one of its rules fails. */
  lemma {:induction false} ValidateReports(chain: seq<Rule>, b: Body, isEmail: string -> bool, f: Field)
    ensures f in Validate(chain, b, isEmail) <==> FailsOn(chain, b, isEmail, f)
    decreases |chain|
  {
    if chain != [] {
      ValidateReports(chain[1..], b, isEmail, f);
      if FailsOn(chain[1..], b, isEmail, f) {
        var i :| 0 <= i < |chain[1..]| && chain[1..][i].field == f && !Passes(chain[1..][i], b, isEmail);
        assert chain[i + 1] == chain[1..][i];
      }
      if FailsOn(chain, b, isEmail, f) {
        var i :| 0 <= i < |chain| && chain[i].field == f && !Passes(chain[i], b, isEmail);
        if i > 0 {
          assert chain[1..][i - 1] == chain[i];
        }
      }
    }
  }

  /** Every field is reported exactly when one of its rules fails. */
  lemma ValidateReportsAll(chain: seq<Rule>, b: Body, isEmail: string -> bool)
    ensures forall f :: f in Validate(chain, b, isEmail) <==> FailsOn(chain, b, isEmail, f)
  {
    forall f: Field
      ensures f in Validate(chain, b, isEmail) <==> FailsOn(chain, b, isEmail, f)
    {
      ValidateReports(chain, b, isEmail, f);
    }
  }

  /** The chain of `POST /createuser`. */
  const CreateUserChain: seq<Rule> := [
    MinLength(ParentName, 1),
    MinLength(PatientName, 1),
    MinLength(Password, 5),
    ConfirmsPassword(ConfirmPassword),
    DigitsOnly(Mobile, 10),
    WellFormedEmail(Email)
  ]

  /** The chain of `POST /loginuser`. */
  const LoginUserChain: seq<Rule> := [
    MinLength(ParentName, 1),
    MinLength(PatientName, 1),
    WellFormedEmail(Email),
    MinLength(Password, 5)
  ]

  /** The chain of `POST /logindoctor`. */
  const LoginDoctorChain: seq<Rule> := [
    MinLength(Name, 1),
    WellFormedEmail(Email),
    MinLength(Password, 5)
  ]

  /** The account-creation rules stated field by field. */
  ghost predicate CreateUserFieldsOk(b: Body, isEmail: string -> bool) {
    && Text(b.parentName) != ""
    && Text(b.patientName) != ""
    && |Text(b.password)| >= 5
    && (!Truthy(b.confirmPassword) || b.confirmPassword == b.password)
    && AllDigits(Text(b.mobile), 10)
    && isEmail(Text(b.email))
  }

  /** The user-login rules stated field by field. */
  ghost predicate LoginUserFieldsOk(b: Body, isEmail: string -> bool) {
    && Text(b.parentName) != ""
    && Text(b.patientName) != ""
    && isEmail(Text(b.email))
    && |Text(b.password)| >= 5
  }

  /** The doctor-login rules stated field by field. */
  ghost predicate LoginDoctorFieldsOk(b: Body, isEmail: string -> bool) {
    && Text(b.name) != ""
    && isEmail(Text(b.email))
    && |Text(b.password)| >= 5
  }

  /** No two rules of `chain` are about the same field, as in each of the
      route's chains. */
  ghost predicate DistinctFields(chain: seq<Rule>) {
    forall i, j :: 0 <= i < j < |chain| ==> chain[i].field != chain[j].field
  }

  lemma ChainsHaveDistinctFields()
    ensures DistinctFields(CreateUserChain)
    ensures DistinctFields(LoginUserChain)
    ensures DistinctFields(LoginDoctorChain)
  {
  }

  /** In a chain with one rule per field, a field is reported exactly when its
      rule fails. */
  lemma SoleRule(chain: seq<Rule>, b: Body, isEmail: string -> bool, k: nat)
    requires DistinctFields(chain)
    requires k < |chain|
    ensures chain[k].field in Validate(chain, b, isEmail) <==> !Passes(chain[k], b, isEmail)
  {
    ValidateReports(chain, b, isEmail, chain[k].field);
    if chain[k].field in Validate(chain, b, isEmail) {
      var i :| 0 <= i < |chain| && chain[i].field == chain[k].field && !Passes(chain[i], b, isEmail);
      assert i == k;
    }
  }

  /** A field no rule mentions is never reported. */
  lemma NoRule(chain: seq<Rule>, b: Body, isEmail: string -> bool, f: Field)
    requires forall i :: 0 <= i < |chain| ==> chain[i].field != f
    ensures f !in Validate(chain, b, isEmail)
  {
    ValidateReports(chain, b, isEmail, f);
  }

  /** The mobile rule of `/createuser` rejects a mobile exactly when it is not
      ten ASCII digits. */
  lemma MobileRule(b: Body, isEmail: string -> bool)
    ensures Mobile in Validate(CreateUserChain, b, isEmail) <==> !AllDigits(Text(b.mobile), 10)
  {
    DigitRunIsAllDigits(Text(b.mobile), 10);
    ChainsHaveDistinctFields();
    SoleRule(CreateUserChain, b, isEmail, 4);
  }

  /** The name and email rules of `/createuser`: each name is reported exactly
      when it is empty or missing, the email exactly when the library rejects it. */
  lemma CreateUserNameErrors(b: Body, isEmail: string -> bool)
    ensures ParentName in Validate(CreateUserChain, b, isEmail) <==> Text(b.parentName) == ""
    ensures PatientName in Validate(CreateUserChain, b, isEmail) <==> Text(b.patientName) == ""
    ensures Email in Validate(CreateUserChain, b, isEmail) <==> !isEmail(Text(b.email))
    ensures Name !in Validate(CreateUserChain, b, isEmail)
  {
    ChainsHaveDistinctFields();
    SoleRule(CreateUserChain, b, isEmail, 0);
    SoleRule(CreateUserChain, b, isEmail, 1);
    SoleRule(CreateUserChain, b, isEmail, 5);
    NoRule(CreateUserChain, b, isEmail, Name);
  }

  /** The password rules of `/createuser`: a password shorter than five is
      reported; the confirmation is reported exactly when it is truthy and
      differs from the password. The last clause is the corollary that a
      missing or empty confirmation never fails. */
  lemma ConfirmPasswordRule(b: Body, isEmail: string -> bool)
    ensures Password in Validate(CreateUserChain, b, isEmail) <==> |Text(b.password)| < 5
    ensures (ConfirmPassword in Validate(CreateUserChain, b, isEmail))
        == (Truthy(b.confirmPassword) && b.confirmPassword != b.password)
    ensures !Truthy(b.confirmPassword) ==> ConfirmPassword !in Validate(CreateUserChain, b, isEmail)
  {
    ChainsHaveDistinctFields();
    SoleRule(CreateUserChain, b, isEmail, 2);
    SoleRule(CreateUserChain, b, isEmail, 3);
  }

  /** `/createuser` reports no field exactly when every field is acceptable. */
  lemma CreateUserAccepts(b: Body, isEmail: string -> bool)
    ensures Validate(CreateUserChain, b, isEmail) == [] <==> CreateUserFieldsOk(b, isEmail)
  {
    var errors := Validate(CreateUserChain, b, isEmail);
    CreateUserNameErrors(b, isEmail);
    ConfirmPasswordRule(b, isEmail);
    MobileRule(b, isEmail);
    if errors != [] {
      assert errors[0] in errors;
    }
  }

  /** Which fields `/loginuser` reports; it has no confirmation or mobile rule. */
  lemma LoginUserErrors(b: Body, isEmail: string -> bool)
    ensures ParentName in Validate(LoginUserChain, b, isEmail) <==> Text(b.parentName) == ""
    ensures PatientName in Validate(LoginUserChain, b, isEmail) <==> Text(b.patientName) == ""
    ensures Email in Validate(LoginUserChain, b, isEmail) <==> !isEmail(Text(b.email))
    ensures Password in Validate(LoginUserChain, b, isEmail) <==> |Text(b.password)| < 5
    ensures Name !in Validate(LoginUserChain, b, isEmail)
    ensures ConfirmPassword !in Validate(LoginUserChain, b, isEmail)
    ensures Mobile !in Validate(LoginUserChain, b, isEmail)
    ensures Validate(LoginUserChain, b, isEmail) == [] <==> LoginUserFieldsOk(b, isEmail)
  {
    var chain := LoginUserChain;
    var errors := Validate(chain, b, isEmail);
    ChainsHaveDistinctFields();
    SoleRule(chain, b, isEmail, 0);
    SoleRule(chain, b, isEmail, 1);
    SoleRule(chain, b, isEmail, 2);
    SoleRule(chain, b, isEmail, 3);
    NoRule(chain, b, isEmail, Name);
    NoRule(chain, b, isEmail, ConfirmPassword);
    NoRule(chain, b, isEmail, Mobile);
    if errors != [] {
      assert errors[0] in errors;
    }
  }

  /** Which fields `/logindoctor` reports. */
  lemma LoginDoctorErrors(b: Body, isEmail: string -> bool)
    ensures Name in Validate(LoginDoctorChain, b, isEmail) <==> Text(b.name) == ""
    ensures Email in Validate(LoginDoctorChain, b, isEmail) <==> !isEmail(Text(b.email))
    ensures Password in Validate(LoginDoctorChain, b, isEmail) <==> |Text(b.password)| < 5
    ensures ParentName !in Validate(LoginDoctorChain, b, isEmail)
    ensures PatientName !in Validate(LoginDoctorChain, b, isEmail)
    ensures ConfirmPassword !in Validate(LoginDoctorChain, b, isEmail)
    ensures Mobile !in Validate(LoginDoctorChain, b, isEmail)
    ensures Validate(LoginDoctorChain, b, isEmail) == [] <==> LoginDoctorFieldsOk(b, isEmail)
  {
    var chain := LoginDoctorChain;
    var errors := Validate(chain, b, isEmail);
    ChainsHaveDistinctFields();
    SoleRule(chain, b, isEmail, 0);
    SoleRule(chain, b, isEmail, 1);
    SoleRule(chain, b, isEmail, 2);
    NoRule(chain, b, isEmail, ParentName);
    NoRule(chain, b, isEmail, PatientName);
    NoRule(chain, b, isEmail, ConfirmPassword);
    NoRule(chain, b, isEmail, Mobile);
    if errors != [] {
      assert errors[0] in errors;
    }
  }
}

=== FILE: wrappers.dfy ===
/** Failure-carrying datatypes shared by the route handlers. */
module Wrappers {

  /** A value that may be absent: a request-body field that was not sent,
      a database lookup that found nothing, an array search without a hit. */
  datatype Option<+T> = None | Some(value: T) {

    /** Returns the value in Some, or `default` for None. */
    function GetOr(default: T): T
    {
      match this
      case Some(v) => v
      case None => default
    }
  }

  /** The outcome of an awaited call inside a handler's `try` block: it either
      completes with a value or throws, in which case the handler's `catch`
      decides the response. The thrown error's message is kept because one
      handler (`POST /patients`) reports it. */
  datatype Attempt<+T> = Done(value: T) | Threw(message: string)
}
